=== FILE: README.md ===
# Cloakroom document ledger: login lockout and ledger core

This project models the logic inside the single React page `src/pages/Index.tsx` of a
QR document check-in system, with the rendering stripped away. What is left is two
small sequential state machines, written here as pure Dafny functions over explicit
state. The clock is passed in as a parameter.

* **Session** (`session.dfy`, with the tables in `roles.dfy`). This is the role picker and
  the secret form. Secrets are compared exactly against the static role→secret table
  (`Roles.Passwords`). Each failure raises the counter by one. The third failure sets a
  90 000 ms lockout, and while it lasts every attempt is rejected before any comparison.
  One firing of the interval timer (`Session.Expire`) clears the deadline and the counter
  once the deadline has passed. `nikitovsky` is logged in without any secret. `client`
  has no table entry, so it can never log in. The archive view is gated twice: by role
  (`CanViewArchive`) and by the archive secret.
* **Document ledger** (`ledger.dfy`, with records in `records.dfy` and codes in
  `codes.dfy`). This is an active sequence and an archive sequence.
  * Create checks the three required fields and the per-category limit. It then appends
    a record whose code is `PREFIX-NNNN`, where the number is the category's active count
    plus one.
  * Issue filters the record's id out of the active sequence. It appends an archived
    copy to the archive.
* **App** (`app.dfy`) puts the two machines together. Each operation can only be used
  through the control the page renders for it, so creation is offered only to roles with
  the create permission.

Main results. Each ledger operation is modelled as one atomic step (see "## Left out"):
* The capacity invariant holds across any sequence of operations
  (`DocumentLedger.ApplyPreservesLimits`, `App.RunPreservesValid`).
* The lockout behaves as described above (`Session.Login`, `Session.ThreeStrikes`,
  `Session.Expire`).
* Codes have an exact format and an inverse (`Codes.ParseFormatCode`).
* Issue conserves records when the active ids are unique (`DocumentLedger.IssueConserves`).
  The ids come from `Date.now().toString()`, so nothing makes them unique. When several
  active records share the issued id, the filter removes all of them while the archive
  gains one copy.

Codes are **not** unique. The number is the active count plus one, so issuing a record
frees a number that the next create hands out again (`CodeUniqueness.CodeCanRepeat`). As
long as nothing is issued and each create runs to its end before the next begins, the
codes stay distinct (`CodeUniqueness.CreatesFromEmptyHaveDistinctCodes`).

Behaviour of the code worth noting:
* Reaching three failures does not reset the counter. It stays at 3 or more until the
  timer clears it or a correct secret is entered at or after the deadline. A wrong
  secret typed after the deadline, but before the timer has fired, counts as a fourth
  failure and starts a new lockout at once (`Session.CounterCanPassThree`).
* A successful login resets the counter but leaves `lockoutTime` as it was.
* No username is looked up or checked; only the role secret counts.
* Nothing in the create handler checks the role. Only the button is hidden
  (`App.CreateNeedsPermission`).
* Issue does no lookup. Issuing a record that is not active still appends it to the
  archive (`DocumentLedger.IssueOfAbsentRecord`).
* The `other` category is limited to 999 active records.

## Model

| member | source | states |
|---|---|---|
| Roles.Secret | src/pages/Index.tsx:37-44 | the table has a non-empty secret for every role except `client`, which has none |
| Roles.ClientNeverMatches | src/pages/Index.tsx:37-44 | no password matches the `client` role |
| Roles.SecretsDistinguishRoles | src/pages/Index.tsx:37-44 | no two roles share a secret; the creator secret equals the archive secret |
| Roles.RoleName | src/pages/Index.tsx:263-273 | the display name is empty exactly when no role is set |
| Roles.RoleNameInjective | src/pages/Index.tsx:263-273 | different roles (or none) get different display names |
| Roles.PermissionMatrix | src/pages/Index.tsx:275-276 | every role but client may create; only admin, creator and nikitovsky may open the archive; archive access implies create access |
| Session.RemainingSeconds | src/pages/Index.tsx:108-110 | the reported seconds are the ceiling of the remaining milliseconds over 1000, and at least 1 |
| Session.SelectRole | src/pages/Index.tsx:97-105 | nikitovsky becomes the current role with no secret; any other role is selected and the secret form shown; counter and lockout untouched |
| Session.Login | src/pages/Index.tsx:107-130 | a locked attempt changes nothing and reports the remaining seconds; success happens exactly when a role is selected and its secret equals the password, and it sets the role and zeroes the counter; a failure adds exactly one to the counter and sets a lockout of now+90000 from the third failure on, otherwise leaving the deadline alone; no other field changes |
| Session.Expire | src/pages/Index.tsx:84-95 | after the deadline the lockout and counter are cleared; before it, or with no deadline, nothing changes; only those two fields are written |
| Session.Logout | src/pages/Index.tsx:132-138 | role, username, password and archive view are cleared; counter, deadline and archive password are kept |
| Session.Handle | src/pages/Index.tsx:292-444 | each control runs the handler bound to it: only a login attempt or the timer moves the counter or the deadline; only a role button, a login or the logout changes the current role; only the archive button opens the archive; only the archive password input and the listing's back button write the archive password, and that back button clears it |
| Session.ControlScreens | src/pages/Index.tsx:278-444 | every control but the timer lives on exactly one screen: role buttons and secret form on the login screen, logout and the archive button on the main screen, the archive controls inside the archive view |
| Session.LockedAttemptIgnoresPassword | src/pages/Index.tsx:108-112 | while locked, the outcome of an attempt is the same for every password |
| Session.ClientLoginAlwaysFails | src/pages/Index.tsx:114-118 | a login with `client` selected never succeeds |
| Session.ThreeStrikes | src/pages/Index.tsx:119-128 | three wrong secrets from a clean counter report attempts 1 and 2, then lock for exactly 90 s; at +89 s one second remains; at +90 s the form is open again |
| Session.CounterCanPassThree | src/pages/Index.tsx:120-124 | a wrong secret at the deadline, before the timer fires, takes the counter to 4 and locks again |
| Session.ExpiryRestartsCount | src/pages/Index.tsx:84-95 | once the timer has cleared an expired lockout, the next wrong secret is attempt 1 |
| Session.LogoutKeepsLockout | src/pages/Index.tsx:132-138 | logging out neither starts nor ends a lockout |
| Session.NikitovskyBypassesLockout | src/pages/Index.tsx:97-102 | the nikitovsky button logs in even while secret attempts are locked out |
| Session.ApplyPreservesValid | src/pages/Index.tsx:292-444 | every on-screen control keeps the session invariant (counter at 3 or more implies a deadline; archive open only for archive roles; correct archive secret only inside the archive view) |
| Session.RunPreservesValid | src/pages/Index.tsx:84-138 | any run of controls keeps the session invariant |
| Session.ReachableIsValid | src/pages/Index.tsx:54-66 | every session reachable from the initial state satisfies the invariant |
| Session.ArchiveAlwaysAsks | src/pages/Index.tsx:346-381 | in a reachable state, opening the archive always shows the password screen first |
| Session.ArchiveListingNeedsPermission | src/pages/Index.tsx:346-347 | in a reachable state, the archive listing is shown only to an archive role that typed the archive secret |
| Records.Limit | src/pages/Index.tsx:46-51 | every category has a limit entry, between 100 and 999 |
| Codes.Decimal | src/pages/Index.tsx:153 | `String(n)` is a non-empty digit string without a leading zero |
| Codes.DecimalValue | src/pages/Index.tsx:153 | the digits of `String(n)` denote n |
| Codes.DecimalLength | src/pages/Index.tsx:153 | a number below 10^k has at most k decimal digits |
| Codes.DecimalExamples | src/pages/Index.tsx:153 | `String` of 1, 42 and 100 gives "1", "42" and "100" |
| Codes.PadExamples | src/pages/Index.tsx:153 | padding "1", "42" and "100" to four characters gives "0001", "0042" and "0100" |
| Codes.PadStartShape | src/pages/Index.tsx:153 | padding keeps the string as a suffix and fills the front with zeros up to the width |
| Codes.UpperCase | src/pages/Index.tsx:152 | upper-casing keeps the length, leaves no lower-case ASCII letter, moves each such letter 32 code points down and keeps every other character |
| Codes.PrefixTable | src/pages/Index.tsx:152 | the four prefixes are DOC, PHO, CAR and OTH |
| Codes.FormatCodeShape | src/pages/Index.tsx:149-154 | a code is the prefix, a dash and at least four digits |
| Codes.ParseFormatCode | src/pages/Index.tsx:149-154 | parsing a formatted code gives back its category and number |
| Codes.FormatCodeInjective | src/pages/Index.tsx:149-154 | equal codes come from the same category and number |
| Codes.FormatCodeDistinct | src/pages/Index.tsx:149-154 | a different category or number gives a different code |
| Codes.CodeLength | src/pages/Index.tsx:153 | numbers up to 9999 give eight-character codes |
| Codes.CodeExamples | src/pages/Index.tsx:149-154 | DOC-0001, OTH-0042 and CAR-0100 are the codes of those numbers |
| DocumentLedger.InCategory | src/pages/Index.tsx:150 | the category filter keeps only records of that category, all taken from the input |
| DocumentLedger.InCategoryConcat | src/pages/Index.tsx:150 | the filter of a concatenation is the concatenation of the filters, so the kept records stay in order |
| DocumentLedger.InCategorySingle | src/pages/Index.tsx:150 | on one record the filter keeps it exactly when it has the category |
| DocumentLedger.InCategoryKeepsAll | src/pages/Index.tsx:150 | every record of the category survives the filter |
| DocumentLedger.CountAppend | src/pages/Index.tsx:162 | appending a record raises its own category's count by one and no other |
| DocumentLedger.NextCode | src/pages/Index.tsx:149-154 | the generated code parses back to the category and the active count plus one |
| DocumentLedger.CreatedBy | src/pages/Index.tsx:186 | the creator is the username if typed, else the role key, else "system" |
| DocumentLedger.Create | src/pages/Index.tsx:156-190 | fails exactly when a required field is empty or the category is at its limit, naming which; on success appends exactly one active record with the form's fields, amounts defaulted to 0, the deposit and creation stamps of their own clock readings, and the code of count+1, and leaves the archive alone |
| DocumentLedger.CreatedCode | src/pages/Index.tsx:149-154 | a created record's code is eight characters and parses back to its category and the count plus one |
| DocumentLedger.WithoutId | src/pages/Index.tsx:212 | the filter keeps no record with the id and only records from the input |
| DocumentLedger.Issue | src/pages/Index.tsx:210-213 | the id leaves the active sequence and an archived copy of the record ends the archive |
| DocumentLedger.WithoutIdConcat | src/pages/Index.tsx:212 | the id filter of a concatenation is the concatenation of the filters, so the surviving records keep their order |
| DocumentLedger.WithoutIdSingle | src/pages/Index.tsx:212 | on one record the id filter keeps it exactly when its id differs |
| DocumentLedger.WithoutIdKeepsOthers | src/pages/Index.tsx:212 | every record with another id survives the filter |
| DocumentLedger.WithoutIdCount | src/pages/Index.tsx:212 | the filter never raises a category count |
| DocumentLedger.WithoutAbsentId | src/pages/Index.tsx:212 | filtering an id nobody holds changes nothing |
| DocumentLedger.WithoutIdRemovesOne | src/pages/Index.tsx:212 | with unique ids, filtering the id of position i removes exactly position i and keeps the order |
| DocumentLedger.IssueConserves | src/pages/Index.tsx:210-213 | when the active ids are unique, issuing the i-th active record removes exactly it, appends its archived copy, and keeps the total number of records |
| DocumentLedger.IssueOfAbsentRecord | src/pages/Index.tsx:210-213 | issuing a record that is not active leaves the active sequence alone but still grows the archive |
| DocumentLedger.CreatePreservesLimits | src/pages/Index.tsx:162-166 | a successful create keeps every category within its limit |
| DocumentLedger.IssuePreservesLimits | src/pages/Index.tsx:210-213 | an issue keeps every category within its limit |
| DocumentLedger.StepPreservesLimits | src/pages/Index.tsx:156-213 | any single create or issue keeps the capacity invariant |
| DocumentLedger.ApplyPreservesLimits | src/pages/Index.tsx:162-166 | no sequence of creates and issues takes a category past its limit |
| DocumentLedger.ArchiveOnlyGrows | src/pages/Index.tsx:213 | the archive before any sequence of operations is a prefix of the archive after it |
| CodeUniqueness.IssueMiddle | src/pages/Index.tsx:210-213 | issuing a record whose id no other record carries removes just that record and keeps the rest in order |
| CodeUniqueness.IssueFreesNumber | src/pages/Index.tsx:149-213 | after appending two records of a category, issuing the first leaves the original records plus the second, and the category count drops from two above the original to one above it |
| CodeUniqueness.CreateAfterIssue | src/pages/Index.tsx:149-213 | once the first of two records of a category is issued, the next create of that category succeeds and repeats the code of the second, which stays active |
| CodeUniqueness.CodeCanRepeat | src/pages/Index.tsx:149-213 | from any ledger with room for two more records of a category: create two, issue the first, create a third, and the third gets the code of the second while both stay active |
| CodeUniqueness.AppendKeepsNumbered | src/pages/Index.tsx:150-153 | appending a record numbered one past its category's count keeps every record numbered by its position in its category |
| CodeUniqueness.CreatePreservesNumbered | src/pages/Index.tsx:168-190 | a successful create keeps the active records numbered by position |
| CodeUniqueness.NumberedHasDistinctCodes | src/pages/Index.tsx:149-154 | records numbered by position have pairwise distinct codes |
| CodeUniqueness.CreatesKeepCodesDistinct | src/pages/Index.tsx:149-190 | a run of creates with no issue keeps the active records numbered and their codes distinct |
| CodeUniqueness.CreatesFromEmptyHaveDistinctCodes | src/pages/Index.tsx:149-190 | starting from an empty ledger, creates alone never produce two active records with one code |
| App.Handle | src/pages/Index.tsx:438-509 | a session control leaves the ledger alone, a ledger action leaves the session alone, and only an issue writes the archive |
| App.LedgerControls | src/pages/Index.tsx:458-509 | create and issue exist only on the main screen; create is never offered to `client`; an issue button exists only for a record of the active table |
| App.ApplyPreservesValid | src/pages/Index.tsx:438-509 | each on-screen action keeps the session invariant and the capacity invariant |
| App.RunPreservesValid | src/pages/Index.tsx:438-509 | any run of on-screen actions keeps both invariants |
| App.ReachableIsValid | src/pages/Index.tsx:46-66 | every reachable page state has every category within its limit |
| App.CreateNeedsPermission | src/pages/Index.tsx:458-464 | a record is added only while a role with the create permission is logged in, and it names the username or that role as its creator |
| App.IssueFromTableConserves | src/pages/Index.tsx:491-509 | with unique active ids, issuing a row of the active table moves exactly that record to the end of the archive |

## Left out

- Rendering (cards, tabs, tables, dialogs) is not modelled. It is view markup.
- The category tabs' filtered listing is not modelled. It is a view over `InCategory`.
- `generateQR`, `handleShowQR` and the QR dialog are not modelled. They call an external
  image library; only the code string is modelled.
- `handlePrintForm` is not modelled. It is browser I/O (`window.open`, `document.write`).
- Speech announcements and toasts are not modelled. They are side effects with no state;
  a toast's content is reported as `LoginReport` where it carries information.
- `Date.now()` and `new Date().toISOString()` are not modelled. The record id and the
  two timestamps are parameters of `Create`; the deposit stamp and the creation stamp
  are separate readings (`Stamps`), since the handler calls the clock for each. The
  session clock is the `now` parameter.
- Session.Login: one clock reading serves both the lock test and the remaining seconds.
  `handleLogin` calls `Date.now()` twice (lines 108 and 109); if the deadline passes
  between the two calls, the code reports 0 seconds or fewer, while the model always
  reports at least 1 (`Session.RemainingSeconds`).
- DocumentLedger.Create: a create is modelled as one atomic step. In the code the
  capacity check (line 162) and the number (line 168) read the rendered `documents`,
  then `await generateQR` (line 169) pauses before the append (line 190), and the dialog
  closes only afterwards (line 191). A second press during that pause sees the same
  `documents`, passes the same check and gets the same code, and both appends land.
  That interleaving is not modelled, so `DocumentLedger.ApplyPreservesLimits`,
  `App.RunPreservesValid` and `CodeUniqueness.CreatesFromEmptyHaveDistinctCodes` hold
  only for creates that each finish before the next begins.
- The `setInterval` timer is left out. One firing is the explicit `Session.Expire`
  transition (`TimerFires`).
- The login button's `disabled` attribute (src/pages/Index.tsx:334) is not part of
  `Session.Enabled`. The page keeps the button disabled for the whole lockout, and after
  the deadline until the next render, so no click reaches the locked branch of
  `handleLogin`. The model is more permissive: `Submit` is enabled during a lockout, so
  the `LockedOut` report of `Session.Login` and `Session.LockedAttemptIgnoresPassword`
  describe the handler, not anything a click can produce.
- The archive gate's open button is not modelled. It only raises a toast, and the
  listing appears as soon as the typed archive password equals the secret.
- Resetting the new-document form after a create is not modelled, and `showNewDocForm` is not
  tracked. This is form state with no bearing on the ledger.
- Create: `Number(x) || 0` is modelled as an optional natural that defaults to 0.
  JavaScript number parsing, negative amounts and fractions are not modelled.
- Codes.UpperCase: only ASCII letters are upper-cased. JavaScript's `toUpperCase` is
  Unicode-aware and can change the length (`'ß'` becomes `"SS"`); this makes no
  difference here, since it is applied only to the ASCII category names.
- `handleRoleSelect` takes a `Role` rather than an arbitrary string. The buttons only
  pass the six role names.
- The user directory, the dual-secret path, `super-admin`, delete and lookup by code
  are not part of this model. They do not appear in `src/pages/Index.tsx`.

=== FILE: app.dfy ===
/** The whole component: the session and the ledger together, with each ledger
    operation reachable only through the control the main screen renders for it. */
module App {
  import opened Roles
  import opened Records
  import S = Session
  import L = DocumentLedger

  datatype App = App(session: S.Session, ledger: L.Ledger)

  const Initial: App := App(S.Initial, L.Empty)

  /** A user action: a session control, the create button of the new-document dialog,
      or the issue button of an active row. `id` and `stamp` stand for the clock
      readings the create handler takes. */
  datatype Action =
    | SessionAction(event: S.Event)
    | CreateDocument(form: Form, id: string, stamp: Stamps)
    | IssueDocument(doc: Document)

  /** The new-document dialog is offered only to roles that may create, and issue
      buttons exist only on rows of the active table. */
  predicate Enabled(a: App, act: Action) {
    match act
    case SessionAction(e) => S.Enabled(a.session, e)
    case CreateDocument(_, _, _) => S.OnMainScreen(a.session) && CanCreateDocuments(a.session.currentRole)
    case IssueDocument(doc) => S.OnMainScreen(a.session) && doc in a.ledger.active
  }

  /** A session control leaves the ledger alone, a ledger action leaves the session
      alone, and only an issue writes the archive. */
  function Handle(a: App, act: Action): (b: App)
    ensures act.SessionAction? ==> b.ledger == a.ledger
    ensures !act.SessionAction? ==> b.session == a.session
    ensures b.ledger.archive != a.ledger.archive ==> act.IssueDocument?
  {
    match act
    case SessionAction(e) => a.(session := S.Handle(a.session, e))
    case CreateDocument(f, id, stamp) =>
      a.(ledger := L.Step(a.ledger, L.CreateOp(f, id, stamp, a.session.username, a.session.currentRole)))
    case IssueDocument(doc) => a.(ledger := L.Issue(a.ledger, doc))
  }

  /** The ledger controls exist only on the main screen; the create button is never
      shown to `client`, and an issue button only for a record of the active table. */
  lemma LedgerControls(a: App, act: Action)
    requires Enabled(a, act) && !act.SessionAction?
    ensures S.OnMainScreen(a.session) && !S.OnLoginScreen(a.session)
    ensures act.CreateDocument? ==> a.session.currentRole.Some? && a.session.currentRole.value != Client
    ensures act.IssueDocument? ==> act.doc in a.ledger.active
  {
  }

  function Apply(a: App, act: Action): App {
    if Enabled(a, act) then Handle(a, act) else a
  }

  function Run(a: App, acts: seq<Action>): App
    decreases |acts|
  {
    if acts == [] then a else Run(Apply(a, acts[0]), acts[1..])
  }

  predicate Valid(a: App) {
    S.Valid(a.session) && L.WithinLimits(a.ledger)
  }

  lemma ApplyPreservesValid(a: App, act: Action)
    requires Valid(a)
    ensures Valid(Apply(a, act))
  {
    if Enabled(a, act) {
      match act
      case SessionAction(e) => S.ApplyPreservesValid(a.session, e);
      case CreateDocument(f, id, stamp) =>
        L.StepPreservesLimits(a.ledger, L.CreateOp(f, id, stamp, a.session.username, a.session.currentRole));
      case IssueDocument(doc) => L.IssuePreservesLimits(a.ledger, doc);
    }
  }

  /** Every state the controls can reach keeps the session invariant and the capacity
      invariant. */
  lemma {:induction false} RunPreservesValid(a: App, acts: seq<Action>)
    requires Valid(a)
    ensures Valid(Run(a, acts))
    decreases |acts|
  {
    if acts != [] {
      ApplyPreservesValid(a, acts[0]);
      RunPreservesValid(Apply(a, acts[0]), acts[1..]);
    }
  }

  lemma ReachableIsValid(acts: seq<Action>)
    ensures Valid(Run(Initial, acts))
    ensures forall c: Category :: L.CountIn(Run(Initial, acts).ledger.active, c) <= Limit(c)
  {
    RunPreservesValid(Initial, acts);
  }

  /** Only a logged-in role with the create permission ever adds a record, and the record
      names its creator: the username if one was typed, else the role key. */
  lemma CreateNeedsPermission(a: App, f: Form, id: string, stamp: Stamps)
    requires Apply(a, CreateDocument(f, id, stamp)).ledger != a.ledger
    ensures CanCreateDocuments(a.session.currentRole)
    ensures var n := |a.ledger.active|;
      var after := Apply(a, CreateDocument(f, id, stamp)).ledger.active;
      && |after| == n + 1
      && after[n].createdBy == (if a.session.username != [] then a.session.username
                                else RoleKey(a.session.currentRole.value))
  {
  }

  /** Issuing from the active table, with unique active ids, conserves records: one
      leaves the active table and one copy enters the archive. */
  lemma IssueFromTableConserves(a: App, i: nat)
    requires S.OnMainScreen(a.session) && L.UniqueIds(a.ledger.active) && i < |a.ledger.active|
    ensures var after := Apply(a, IssueDocument(a.ledger.active[i])).ledger;
      && after.active == a.ledger.active[..i] + a.ledger.active[i + 1..]
      && after.archive == a.ledger.archive + [a.ledger.active[i].(status := Archived)]
  {
    L.IssueConserves(a.ledger, i);
  }
}

=== FILE: code_uniqueness.dfy ===
/** How far the document code identifies a record. The number in a code is the
    active count of its category plus one. As long as nothing is issued the codes of
    the active records are pairwise distinct; an issue frees a number that the next
    create hands out again, so the code is not a unique key. */
module CodeUniqueness {
  import opened Wrappers
  import opened Roles
  import opened Records
  import opened Codes
  import opened DocumentLedger

  /** What a successful create did: it appended `d`, numbered after the records of its
      category that were already active. */
  lemma {:induction false} Appended(l: Ledger, f: Form, id: string, stamp: Stamps, username: string,
                 role: Option<Role>, l': Ledger, d: Document)
    requires Create(l, f, id, stamp, username, role) == Success(Created(l', d))
    ensures l'.active == l.active + [d] && d.id == id && d.category == f.category
    ensures d.code == FormatCode(f.category, CountIn(l.active, f.category) + 1)
  {
  }

  /** Issuing the record `d1` of `active + [d1, d2]`, when no other record has its id,
      leaves `active + [d2]`. */
  lemma {:induction false} IssueMiddle(active: seq<Document>, d1: Document, d2: Document)
    requires forall k :: 0 <= k < |active| ==> active[k].id != d1.id
    requires d2.id != d1.id
    ensures WithoutId(active + [d1] + [d2], d1.id) == active + [d2]
  {
    var id := d1.id;
    WithoutAbsentId(active, id);
    WithoutIdSingle(d1, id);
    WithoutIdSingle(d2, id);
    WithoutIdConcat(active, [d1], id);
    assert WithoutId(active + [d1], id) == active;
    WithoutIdConcat(active + [d1], [d2], id);
  }

  /** Append `d1` and then `d2` of category `c` and issue `d1`: the active sequence is
      the original one plus `d2`, so the count of `c` is one above the original, while it
      was two above it before the issue. */
  lemma {:induction false} IssueFreesNumber(active: seq<Document>, d1: Document, d2: Document, c: Category)
    requires forall k :: 0 <= k < |active| ==> active[k].id != d1.id
    requires d2.id != d1.id && d1.category == c && d2.category == c
    ensures WithoutId(active + [d1] + [d2], d1.id) == active + [d2]
    ensures CountIn(active + [d1] + [d2], c) == CountIn(active, c) + 2
    ensures CountIn(WithoutId(active + [d1] + [d2], d1.id), c) == CountIn(active, c) + 1
  {
    CountAppend(active, d1, c);
    CountAppend(active + [d1], d2, c);
    IssueMiddle(active, d1, d2);
    CountAppend(active, d2, c);
  }

  /** Issue `d1` out of `active + [d1, d2]`, where `d2` carries the number two above the
      original count of its category, and create a third record of that category: it
      gets the code of `d2`, and both are active. */
  lemma {:induction false} CreateAfterIssue(l: Ledger, l2: Ledger, d1: Document, d2: Document, f: Form,
                      id: string, stamp: Stamps, username: string, role: Option<Role>)
    requires !MissingRequired(f) && CountIn(l.active, f.category) + 2 <= Limit(f.category)
    requires forall k :: 0 <= k < |l.active| ==> l.active[k].id != d1.id
    requires d2.id != d1.id && d1.category == f.category && d2.category == f.category
    requires l2.active == l.active + [d1] + [d2]
    requires d2.code == FormatCode(f.category, CountIn(l.active, f.category) + 2)
    ensures var r := Create(Issue(l2, d1), f, id, stamp, username, role);
      && r.Success?
      && r.value.doc.code == d2.code
      && r.value.ledger.active == l.active + [d2, r.value.doc]
  {
    IssueFreesNumber(l.active, d1, d2, f.category);
    var r := Create(Issue(l2, d1), f, id, stamp, username, role);
    assert r.Success?;
    assert r.value.ledger.active == l.active + [d2] + [r.value.doc];
  }

  /** Codes are not unique. Create two records `d1` and `d2` of one category, issue
      `d1`, and create a third record of that category: it gets the code of `d2`, and
      both are active. This holds from any ledger in which the two creates succeed and
      `d1`'s id is fresh. */
  lemma {:induction false} CodeCanRepeat(l: Ledger, f: Form, id1: string, id2: string, id3: string,
                      stamp: Stamps, username: string, role: Option<Role>,
                      l1: Ledger, d1: Document, l2: Ledger, d2: Document)
    requires forall k :: 0 <= k < |l.active| ==> l.active[k].id != id1
    requires id1 != id2
    requires Create(l, f, id1, stamp, username, role) == Success(Created(l1, d1))
    requires Create(l1, f, id2, stamp, username, role) == Success(Created(l2, d2))
    ensures var r := Create(Issue(l2, d1), f, id3, stamp, username, role);
      && r.Success?
      && r.value.doc.code == d2.code
      && r.value.ledger.active == l.active + [d2, r.value.doc]
  {
    Appended(l, f, id1, stamp, username, role, l1, d1);
    Appended(l1, f, id2, stamp, username, role, l2, d2);
    CountAppend(l.active, d1, f.category);
    CreateAfterIssue(l, l2, d1, d2, f, id3, stamp, username, role);
  }

  /** Every active record carries the code of its position among the records of its
      category: the `k`-th record of a category is numbered `k`. */
  predicate Numbered(docs: seq<Document>) {
    forall i :: 0 <= i < |docs| ==> NumberedAt(docs, i)
  }

  /** The record at position `i` is numbered by the count of its category up to it. */
  predicate NumberedAt(docs: seq<Document>, i: nat)
    requires i < |docs|
  {
    docs[i].code == FormatCode(docs[i].category, CountIn(docs[..i + 1], docs[i].category))
  }

  /** No two records share a code. */
  predicate DistinctCodes(docs: seq<Document>) {
    forall i, j :: 0 <= i < j < |docs| ==> docs[i].code != docs[j].code
  }

  /** A record already numbered keeps its number when another is appended. */
  lemma {:induction false} EarlierStaysNumbered(docs: seq<Document>, d: Document, i: nat)
    requires i < |docs|
    requires NumberedAt(docs, i)
    ensures NumberedAt(docs + [d], i)
  {
    assert (docs + [d])[..i + 1] == docs[..i + 1];
  }

  /** The appended record is numbered one past the count before it. */
  lemma {:induction false} LastIsNumbered(docs: seq<Document>, d: Document)
    requires d.code == FormatCode(d.category, CountIn(docs, d.category) + 1)
    ensures NumberedAt(docs + [d], |docs|)
  {
    var all := docs + [d];
    assert all[..|docs| + 1] == all;
    CountAppend(docs, d, d.category);
  }

  /** Extending a prefix by one record counts that record in its own category only. */
  lemma {:induction false} PrefixCountStep(docs: seq<Document>, j: nat, c: Category)
    requires j < |docs|
    ensures CountIn(docs[..j + 1], c) == CountIn(docs[..j], c) + (if docs[j].category == c then 1 else 0)
  {
    assert docs[..j + 1] == docs[..j] + [docs[j]];
    CountAppend(docs[..j], docs[j], c);
  }

  /** Appending a record numbered one past its category's count keeps the records
      numbered. */
  lemma {:induction false} AppendKeepsNumbered(docs: seq<Document>, d: Document)
    requires Numbered(docs)
    requires d.code == FormatCode(d.category, CountIn(docs, d.category) + 1)
    ensures Numbered(docs + [d])
  {
    var all := docs + [d];
    assert forall i :: 0 <= i < |docs| ==> NumberedAt(all, i) by {
      forall i | 0 <= i < |docs|
        ensures NumberedAt(all, i)
      {
        EarlierStaysNumbered(docs, d, i);
      }
    }
    assert NumberedAt(all, |docs|) by {
      LastIsNumbered(docs, d);
    }
  }

  lemma {:induction false} CreatePreservesNumbered(l: Ledger, f: Form, id: string, stamp: Stamps, username: string, role: Option<Role>)
    requires Numbered(l.active)
    ensures var r := Create(l, f, id, stamp, username, role);
      r.Success? ==> Numbered(r.value.ledger.active)
  {
    var r := Create(l, f, id, stamp, username, role);
    if r.Success? {
      AppendKeepsNumbered(l.active, r.value.doc);
    }
  }

  /** Counting a longer prefix never gives less. */
  lemma {:induction false} PrefixCountMonotone(docs: seq<Document>, i: nat, j: nat, c: Category)
    requires i <= j <= |docs|
    ensures CountIn(docs[..i], c) <= CountIn(docs[..j], c)
    decreases j - i
  {
    if i < j {
      PrefixCountMonotone(docs, i, j - 1, c);
      PrefixCountStep(docs, j - 1, c);
    }
  }

  /** Numbered records have pairwise distinct codes. */
  lemma {:induction false} NumberedHasDistinctCodes(docs: seq<Document>)
    requires Numbered(docs)
    ensures DistinctCodes(docs)
  {
    forall i, j | 0 <= i < j < |docs|
      ensures docs[i].code != docs[j].code
    {
      assert NumberedAt(docs, i) && NumberedAt(docs, j);
      var ci := docs[i].category;
      var cj := docs[j].category;
      var ni := CountIn(docs[..i + 1], ci);
      var nj := CountIn(docs[..j + 1], cj);
      if ci == cj {
        PrefixCountMonotone(docs, i + 1, j, ci);
        PrefixCountStep(docs, j, ci);
        assert ni < nj;
      }
      FormatCodeDistinct(ci, ni, cj, nj);
    }
  }

  /** The operation list holds creates only. */
  predicate OnlyCreates(ops: seq<Op>) {
    forall k :: 0 <= k < |ops| ==> ops[k].CreateOp?
  }

  /** Starting from a numbered ledger (the empty one, say), any run of creates with no
      issue keeps the active records numbered, so their codes stay distinct. */
  lemma {:induction false} CreatesKeepCodesDistinct(l: Ledger, ops: seq<Op>)
    requires Numbered(l.active) && OnlyCreates(ops)
    ensures Numbered(Apply(l, ops).active)
    ensures DistinctCodes(Apply(l, ops).active)
    decreases |ops|
  {
    if ops == [] {
      NumberedHasDistinctCodes(l.active);
    } else {
      var op := ops[0];
      CreatePreservesNumbered(l, op.form, op.id, op.stamp, op.username, op.role);
      assert OnlyCreates(ops[1..]) by {
        forall k | 0 <= k < |ops[1..]| ensures ops[1..][k].CreateOp? {
          assert ops[1..][k] == ops[k + 1];
        }
      }
      CreatesKeepCodesDistinct(Step(l, op), ops[1..]);
    }
  }

  /** From an empty ledger, creates alone never produce two active records with one
      code; `CodeCanRepeat` shows that a single issue ends this. */
  lemma {:induction false} CreatesFromEmptyHaveDistinctCodes(ops: seq<Op>)
    requires OnlyCreates(ops)
    ensures DistinctCodes(Apply(Empty, ops).active)
  {
    CreatesKeepCodesDistinct(Empty, ops);
  }
}

=== FILE: codes.dfy ===
/** The document code of `generateDocumentNumber`: the first three letters of the
    category in upper case, a dash, and a number left-padded with zeros to four digits
    (`DOC-0001`). `ParseCode` reads a code back, and the two are proved inverse. */
module Codes {
  import opened Wrappers
  import opened Records

  predicate IsDigit(ch: char) {
    '0' <= ch <= '9'
  }

  predicate AllDigits(s: string) {
    forall i :: 0 <= i < |s| ==> IsDigit(s[i])
  }

  function DigitChar(d: nat): (ch: char)
    requires d < 10
    ensures IsDigit(ch)
  {
    ('0' as int + d) as char
  }

  function DigitValue(ch: char): (d: nat)
    requires IsDigit(ch)
    ensures d < 10
  {
    ch as int - '0' as int
  }

  /** `String(n)`: the decimal digits of `n`, without leading zeros. */
  function Decimal(n: nat): (s: string)
    ensures |s| >= 1 && AllDigits(s)
    ensures n > 0 ==> s[0] != '0'
    decreases n
  {
    if n < 10 then [DigitChar(n)] else Decimal(n / 10) + [DigitChar(n % 10)]
  }

  /** The number a string of decimal digits denotes (leading zeros allowed). */
  function DigitsValue(s: string): nat
    requires AllDigits(s)
    decreases |s|
  {
    if s == [] then 0 else DigitsValue(s[..|s| - 1]) * 10 + DigitValue(s[|s| - 1])
  }

  lemma {:induction false} DecimalValue(n: nat)
    ensures DigitsValue(Decimal(n)) == n
    decreases n
  {
    if n >= 10 {
      var s := Decimal(n);
      assert s[..|s| - 1] == Decimal(n / 10);
      DecimalValue(n / 10);
    }
  }

  function Pow10(k: nat): (p: nat)
    ensures p >= 1
  {
    if k == 0 then 1 else 10 * Pow10(k - 1)
  }

  /** A number below `10^k` has at most `k` digits. */
  lemma {:induction false} DecimalLength(n: nat, k: nat)
    requires 1 <= k && n < Pow10(k)
    ensures |Decimal(n)| <= k
    decreases k
  {
    if n >= 10 {
      assert k >= 2;
      assert n / 10 < Pow10(k - 1);
      DecimalLength(n / 10, k - 1);
    }
  }

  function Zeros(k: nat): (z: string)
    ensures |z| == k && AllDigits(z)
  {
    seq(k, _ => '0')
  }

  lemma {:induction false} ZerosValue(k: nat, t: string)
    requires AllDigits(t)
    ensures DigitsValue(Zeros(k) + t) == DigitsValue(t)
    decreases |t|, k
  {
    var s := Zeros(k) + t;
    if t == [] {
      if k > 0 {
        assert s[..|s| - 1] == Zeros(k - 1) + [];
        ZerosValue(k - 1, []);
      }
    } else {
      var init := t[..|t| - 1];
      assert s[..|s| - 1] == Zeros(k) + init;
      ZerosValue(k, init);
    }
  }

  /** `s.padStart(width, '0')`. */
  function PadStart(s: string, width: nat): string {
    if |s| >= width then s else Zeros(width - |s|) + s
  }

  /** Padding reaches the width, keeps `s` as its suffix and fills the front with zeros. */
  lemma PadStartShape(s: string, width: nat)
    ensures var r := PadStart(s, width);
      && |r| == (if |s| >= width then |s| else width)
      && r[|r| - |s|..] == s
      && forall i :: 0 <= i < |r| - |s| ==> r[i] == '0'
  {
  }

  /** ASCII `toUpperCase` on one character. */
  function UpperChar(ch: char): char {
    if 'a' <= ch <= 'z' then (ch as int - 'a' as int + 'A' as int) as char else ch
  }

  /** ASCII `toUpperCase`: no lower-case ASCII letter is left, each one becomes the
      letter 32 code points below it, and every other character stays. */
  function UpperCase(s: string): (u: string)
    ensures |u| == |s|
    ensures forall i :: 0 <= i < |u| ==> !('a' <= u[i] <= 'z')
    ensures forall i :: 0 <= i < |s| ==>
      if 'a' <= s[i] <= 'z' then u[i] as int == s[i] as int - 32 else u[i] == s[i]
  {
    seq(|s|, i requires 0 <= i < |s| => UpperChar(s[i]))
  }

  /** `category.substring(0, 3).toUpperCase()`. */
  function Prefix(c: Category): string {
    var name := CategoryName(c);
    UpperCase(name[..if |name| < 3 then |name| else 3])
  }

  /** The four prefixes, spelled out; they are pairwise distinct. */
  lemma PrefixTable()
    ensures Prefix(Documents) == "DOC" && Prefix(Photos) == "PHO"
    ensures Prefix(Cards) == "CAR" && Prefix(Other) == "OTH"
  {
  }

  /** The category whose prefix is `p`, if any. */
  function PrefixOwner(p: string): (r: Option<Category>)
    ensures r.Some? ==> Prefix(r.value) == p
  {
    PrefixTable();
    if p == "DOC" then Some(Documents)
    else if p == "PHO" then Some(Photos)
    else if p == "CAR" then Some(Cards)
    else if p == "OTH" then Some(Other)
    else None
  }

  /** The code of the `n`-th document of category `c`. */
  function FormatCode(c: Category, n: nat): string {
    Prefix(c) + "-" + PadStart(Decimal(n), 4)
  }

  /** A code is the three-letter prefix, a dash and at least four digits. */
  lemma FormatCodeShape(c: Category, n: nat)
    ensures var code := FormatCode(c, n);
      && |code| >= 8
      && code[..3] == Prefix(c) && code[3] == '-'
      && AllDigits(code[4..])
  {
    PrefixTable();
    PadStartShape(Decimal(n), 4);
    var code := FormatCode(c, n);
    assert code[4..] == PadStart(Decimal(n), 4);
  }

  /** Reads a code back into its category and number. */
  function ParseCode(code: string): Option<(Category, nat)> {
    if |code| >= 8 && code[3] == '-' && AllDigits(code[4..]) then
      match PrefixOwner(code[..3])
      case Some(c) => Some((c, DigitsValue(code[4..])))
      case None => None
    else None
  }

  /** Every code `FormatCode` writes is read back as the category and number it was
      written from. */
  lemma ParseFormatCode(c: Category, n: nat)
    ensures ParseCode(FormatCode(c, n)) == Some((c, n))
  {
    PrefixTable();
    FormatCodeShape(c, n);
    var digits := Decimal(n);
    var code := FormatCode(c, n);
    var padded := PadStart(digits, 4);
    assert code[4..] == padded;
    assert code[..3] == Prefix(c);
    assert PrefixOwner(code[..3]) == Some(c);
    if |digits| < 4 {
      ZerosValue(4 - |digits|, digits);
    }
    DecimalValue(n);
  }

  /** Different categories or numbers never share a code. */
  lemma FormatCodeInjective(c1: Category, n1: nat, c2: Category, n2: nat)
    requires FormatCode(c1, n1) == FormatCode(c2, n2)
    ensures c1 == c2 && n1 == n2
  {
    ParseFormatCode(c1, n1);
    ParseFormatCode(c2, n2);
  }

  /** The same fact read the other way: a different category or number gives a
      different code. */
  lemma FormatCodeDistinct(c1: Category, n1: nat, c2: Category, n2: nat)
    requires c1 != c2 || n1 != n2
    ensures FormatCode(c1, n1) != FormatCode(c2, n2)
  {
    ParseFormatCode(c1, n1);
    ParseFormatCode(c2, n2);
  }

  /** Numbers up to 9999 give codes of exactly eight characters. */
  lemma CodeLength(c: Category, n: nat)
    requires n <= 9999
    ensures |FormatCode(c, n)| == 8
  {
    DecimalLength(n, 4);
  }

  lemma CodeExamples()
    ensures FormatCode(Documents, 1) == "DOC-0001"
    ensures FormatCode(Other, 42) == "OTH-0042"
    ensures FormatCode(Cards, 100) == "CAR-0100"
  {
    PrefixTable();
    DecimalExamples();
    PadExamples();
  }

  /** `padStart(4, '0')` on the digit strings the code examples use. */
  lemma PadExamples()
    ensures PadStart("1", 4) == "0001" && PadStart("42", 4) == "0042"
    ensures PadStart("100", 4) == "0100"
  {
    assert Zeros(3) == "000";
    assert Zeros(2) == "00";
    assert Zeros(1) == "0";
  }

  /** `String(n)` on the numbers the code examples use. */
  lemma DecimalExamples()
    ensures Decimal(1) == "1" && Decimal(42) == "42" && Decimal(100) == "100"
  {
    assert Decimal(4) == "4";
    assert Decimal(42) == Decimal(4) + ['2'];
    assert Decimal(10) == Decimal(1) + ['0'];
    assert Decimal(100) == Decimal(10) + ['0'];
  }
}

=== FILE: ledger.dfy ===
/** The document ledger of src/pages/Index.tsx: the active and archived sequences,
    `handleCreateDocument` with its required-field and capacity checks, the code
    generator, and `handleIssueDocument`. Record ids and timestamps, which the source
    takes from the clock, are parameters. */
module DocumentLedger {
  import opened Wrappers
  import opened Roles
  import opened Records
  import opened Codes

  /** `documents` (active, in insertion order) and `archivedDocuments`. */
  datatype Ledger = Ledger(active: seq<Document>, archive: seq<Document>)

  const Empty: Ledger := Ledger([], [])

  /** `docs.filter(d => d.category === c)`. */
  function InCategory(docs: seq<Document>, c: Category): (r: seq<Document>)
    ensures |r| <= |docs|
    ensures forall i :: 0 <= i < |r| ==> r[i].category == c && r[i] in docs
    decreases |docs|
  {
    if docs == [] then []
    else if docs[0].category == c then [docs[0]] + InCategory(docs[1..], c)
    else InCategory(docs[1..], c)
  }

  /** The filter works piecewise on a concatenation, so it keeps the records of `c` in
      their order. */
  lemma {:induction false} InCategoryConcat(a: seq<Document>, b: seq<Document>, c: Category)
    ensures InCategory(a + b, c) == InCategory(a, c) + InCategory(b, c)
    decreases |a|
  {
    if a == [] {
      assert a + b == b;
    } else {
      assert (a + b)[0] == a[0];
      assert (a + b)[1..] == a[1..] + b;
      InCategoryConcat(a[1..], b, c);
    }
  }

  /** On one record the filter keeps it exactly when it is of category `c`. */
  lemma InCategorySingle(d: Document, c: Category)
    ensures InCategory([d], c) == if d.category == c then [d] else []
  {
    assert [d][1..] == [];
  }

  /** The filter drops no record of category `c`. */
  lemma {:induction false} InCategoryKeepsAll(docs: seq<Document>, c: Category, d: Document)
    requires d in docs && d.category == c
    ensures d in InCategory(docs, c)
    decreases |docs|
  {
    if docs[0] != d {
      InCategoryKeepsAll(docs[1..], c, d);
    }
  }

  function CountIn(docs: seq<Document>, c: Category): nat {
    |InCategory(docs, c)|
  }

  /** Appending one record raises the count of its own category by one and leaves
      every other category's count as it was. */
  lemma {:induction false} CountAppend(docs: seq<Document>, d: Document, c: Category)
    ensures CountIn(docs + [d], c) == CountIn(docs, c) + (if d.category == c then 1 else 0)
    decreases |docs|
  {
    if docs == [] {
      assert docs + [d] == [d];
    } else {
      assert (docs + [d])[1..] == docs[1..] + [d];
      CountAppend(docs[1..], d, c);
    }
  }

  /** `generateDocumentNumber`: the category prefix and the active count of the
      category plus one. */
  function NextCode(l: Ledger, c: Category): (code: string)
    ensures ParseCode(code) == Some((c, CountIn(l.active, c) + 1))
    ensures code[..3] == Prefix(c) && code[3] == '-'
  {
    ParseFormatCode(c, CountIn(l.active, c) + 1);
    FormatCode(c, CountIn(l.active, c) + 1)
  }

  /** `!firstName || !lastName || !phone`: the empty string is the only falsy string. */
  predicate MissingRequired(f: Form) {
    f.firstName == [] || f.lastName == [] || f.phone == []
  }

  datatype CreateError = MissingRequiredFields | CategoryFull(category: Category, limit: nat)

  /** `username || currentRole || 'system'`. */
  function CreatedBy(username: string, role: Option<Role>): (who: string)
    ensures |who| > 0
    ensures username != [] ==> who == username
    ensures username == [] && role.Some? ==> who == RoleKey(role.value)
    ensures username == [] && role.None? ==> who == "system"
  {
    if username != [] then username
    else if role.Some? then RoleKey(role.value)
    else "system"
  }

  datatype Created = Created(ledger: Ledger, doc: Document)

  /** `handleCreateDocument`. The handler itself checks no role. */
  function Create(l: Ledger, f: Form, id: string, stamp: Stamps, username: string, role: Option<Role>)
    : (r: Result<Created, CreateError>)
    ensures r.Failure? <==> MissingRequired(f) || CountIn(l.active, f.category) >= Limit(f.category)
    ensures r.Failure? ==> r.error == (if MissingRequired(f) then MissingRequiredFields
                                       else CategoryFull(f.category, Limit(f.category)))
    ensures r.Success? ==> r.value.ledger.active == l.active + [r.value.doc]
    ensures r.Success? ==> r.value.ledger.archive == l.archive
    ensures r.Success? ==>
      var d := r.value.doc;
      && d.status == Active && d.id == id && d.category == f.category
      && d.firstName == f.firstName && d.lastName == f.lastName && d.middleName == f.middleName
      && d.phone == f.phone && d.email == f.email && d.itemDescription == f.itemDescription
      && d.pickupDate == f.pickupDate && d.depositDate == stamp.deposit && d.createdAt == stamp.created
      && d.depositAmount == f.depositAmount.GetOr(0) && d.pickupAmount == f.pickupAmount.GetOr(0)
      && d.createdBy == CreatedBy(username, role)
    ensures r.Success? ==> r.value.doc.code == FormatCode(f.category, CountIn(l.active, f.category) + 1)
  {
    if MissingRequired(f) then Failure(MissingRequiredFields)
    else if CountIn(l.active, f.category) >= Limit(f.category) then
      Failure(CategoryFull(f.category, Limit(f.category)))
    else
      var code := NextCode(l, f.category);
      var doc := Document(
        id, code, f.firstName, f.lastName, f.middleName, f.phone, f.email,
        f.itemDescription, f.category, f.depositAmount.GetOr(0), f.pickupAmount.GetOr(0),
        stamp.deposit, f.pickupDate, Active, CreatedBy(username, role), stamp.created);
      Success(Created(Ledger(l.active + [doc], l.archive), doc))
  }

  /** The code a create hands out is eight characters long, since no category allows
      more than 999 records, and it parses back to the category and the number. */
  lemma CreatedCode(l: Ledger, f: Form, id: string, stamp: Stamps, username: string, role: Option<Role>)
    requires Create(l, f, id, stamp, username, role).Success?
    ensures var d := Create(l, f, id, stamp, username, role).value.doc;
      && |d.code| == 8
      && ParseCode(d.code) == Some((f.category, CountIn(l.active, f.category) + 1))
  {
    var n := CountIn(l.active, f.category) + 1;
    CodeLength(f.category, n);
    ParseFormatCode(f.category, n);
  }

  /** `docs.filter(d => d.id !== id)`. */
  function WithoutId(docs: seq<Document>, id: string): (r: seq<Document>)
    ensures |r| <= |docs|
    ensures forall i :: 0 <= i < |r| ==> r[i].id != id && r[i] in docs
    decreases |docs|
  {
    if docs == [] then []
    else if docs[0].id == id then WithoutId(docs[1..], id)
    else [docs[0]] + WithoutId(docs[1..], id)
  }

  /** `handleIssueDocument`: every active record with the given id leaves the active
      sequence, and one copy marked archived is appended to the archive. */
  function Issue(l: Ledger, doc: Document): (r: Ledger)
    ensures r.active == WithoutId(l.active, doc.id)
    ensures r.archive == l.archive + [doc.(status := Archived)]
  {
    Ledger(WithoutId(l.active, doc.id), l.archive + [doc.(status := Archived)])
  }

  /** The id filter works piecewise on a concatenation. */
  lemma {:induction false} WithoutIdConcat(a: seq<Document>, b: seq<Document>, id: string)
    ensures WithoutId(a + b, id) == WithoutId(a, id) + WithoutId(b, id)
    decreases |a|
  {
    if a == [] {
      assert a + b == b;
    } else {
      assert (a + b)[0] == a[0];
      assert (a + b)[1..] == a[1..] + b;
      WithoutIdConcat(a[1..], b, id);
    }
  }

  /** The filter on a single record keeps it exactly when its id differs. */
  lemma {:induction false} WithoutIdSingle(d: Document, id: string)
    ensures WithoutId([d], id) == if d.id == id then [] else [d]
  {
    assert [d][1..] == [];
  }

  /** Every record of `docs` with a different id survives the filter. */
  lemma {:induction false} WithoutIdKeepsOthers(docs: seq<Document>, id: string, d: Document)
    requires d in docs && d.id != id
    ensures d in WithoutId(docs, id)
    decreases |docs|
  {
    if docs[0] != d {
      WithoutIdKeepsOthers(docs[1..], id, d);
    }
  }

  /** The filter never raises a category's count. */
  lemma {:induction false} WithoutIdCount(docs: seq<Document>, id: string, c: Category)
    ensures CountIn(WithoutId(docs, id), c) <= CountIn(docs, c)
    decreases |docs|
  {
    if docs != [] {
      WithoutIdCount(docs[1..], id, c);
    }
  }

  /** No two records of `docs` share an id. */
  predicate UniqueIds(docs: seq<Document>) {
    forall i, j :: 0 <= i < j < |docs| ==> docs[i].id != docs[j].id
  }

  /** A filter for an id nobody holds changes nothing. */
  lemma {:induction false} WithoutAbsentId(docs: seq<Document>, id: string)
    requires forall k :: 0 <= k < |docs| ==> docs[k].id != id
    ensures WithoutId(docs, id) == docs
    decreases |docs|
  {
    if docs != [] {
      WithoutAbsentId(docs[1..], id);
    }
  }

  /** With unique ids, removing the id of `docs[i]` removes exactly position `i` and
      keeps every other record in its order. */
  lemma {:induction false} WithoutIdRemovesOne(docs: seq<Document>, i: nat)
    requires UniqueIds(docs) && i < |docs|
    ensures WithoutId(docs, docs[i].id) == docs[..i] + docs[i + 1..]
  {
    var id := docs[i].id;
    var pre, post := docs[..i], docs[i + 1..];
    assert docs == pre + [docs[i]] + post;
    assert forall k :: 0 <= k < |pre| ==> pre[k].id != id by {
      forall k | 0 <= k < |pre|
        ensures pre[k].id != id
      {
        assert pre[k] == docs[k];
      }
    }
    assert forall k :: 0 <= k < |post| ==> post[k].id != id by {
      forall k | 0 <= k < |post|
        ensures post[k].id != id
      {
        assert post[k] == docs[i + 1 + k];
      }
    }
    assert WithoutId(pre + [docs[i]], id) == pre by {
      WithoutAbsentId(pre, id);
      WithoutIdSingle(docs[i], id);
      WithoutIdConcat(pre, [docs[i]], id);
      assert pre + [] == pre;
    }
    assert WithoutId(docs, id) == pre + post by {
      WithoutAbsentId(post, id);
      WithoutIdConcat(pre + [docs[i]], post, id);
    }
  }

  /** Issuing the `i`-th active record of a ledger whose active ids are unique moves
      that one record to the end of the archive: the rest of the active sequence keeps
      its order, the archive grows by one, and no record is lost or duplicated. */
  lemma IssueConserves(l: Ledger, i: nat)
    requires UniqueIds(l.active) && i < |l.active|
    ensures Issue(l, l.active[i]).active == l.active[..i] + l.active[i + 1..]
    ensures Issue(l, l.active[i]).archive == l.archive + [l.active[i].(status := Archived)]
    ensures |Issue(l, l.active[i]).active| + |Issue(l, l.active[i]).archive| == |l.active| + |l.archive|
  {
    WithoutIdRemovesOne(l.active, i);
  }

  /** The source does not look the record up: issuing a record that is not active
      leaves the active sequence alone but still appends it to the archive. */
  lemma IssueOfAbsentRecord(l: Ledger, doc: Document)
    requires forall k :: 0 <= k < |l.active| ==> l.active[k].id != doc.id
    ensures Issue(l, doc).active == l.active
    ensures |Issue(l, doc).archive| == |l.archive| + 1
  {
    WithoutAbsentId(l.active, doc.id);
  }

  /** The capacity invariant: no category holds more active records than its limit. */
  predicate WithinLimits(l: Ledger) {
    forall c: Category :: CountIn(l.active, c) <= Limit(c)
  }

  lemma CreatePreservesLimits(l: Ledger, f: Form, id: string, stamp: Stamps, username: string, role: Option<Role>)
    requires WithinLimits(l)
    ensures var r := Create(l, f, id, stamp, username, role);
      r.Success? ==> WithinLimits(r.value.ledger)
  {
    var r := Create(l, f, id, stamp, username, role);
    if r.Success? {
      forall c: Category
        ensures CountIn(r.value.ledger.active, c) <= Limit(c)
      {
        CountAppend(l.active, r.value.doc, c);
      }
    }
  }

  lemma IssuePreservesLimits(l: Ledger, doc: Document)
    requires WithinLimits(l)
    ensures WithinLimits(Issue(l, doc))
  {
    forall c: Category
      ensures CountIn(Issue(l, doc).active, c) <= Limit(c)
    {
      WithoutIdCount(l.active, doc.id, c);
    }
  }

  /** A ledger operation as the UI invokes it. */
  datatype Op =
    | CreateOp(form: Form, id: string, stamp: Stamps, username: string, role: Option<Role>)
    | IssueOp(doc: Document)

  /** A rejected create leaves the ledger as it was. */
  function Step(l: Ledger, op: Op): Ledger {
    match op
    case CreateOp(f, id, stamp, username, role) =>
      (match Create(l, f, id, stamp, username, role)
       case Success(created) => created.ledger
       case Failure(_) => l)
    case IssueOp(doc) => Issue(l, doc)
  }

  function Apply(l: Ledger, ops: seq<Op>): Ledger
    decreases |ops|
  {
    if ops == [] then l else Apply(Step(l, ops[0]), ops[1..])
  }

  lemma StepPreservesLimits(l: Ledger, op: Op)
    requires WithinLimits(l)
    ensures WithinLimits(Step(l, op))
  {
    match op
    case CreateOp(f, id, stamp, username, role) => CreatePreservesLimits(l, f, id, stamp, username, role);
    case IssueOp(doc) => IssuePreservesLimits(l, doc);
  }

  /** No sequence of creates and issues takes a category past its limit. */
  lemma {:induction false} ApplyPreservesLimits(l: Ledger, ops: seq<Op>)
    requires WithinLimits(l)
    ensures WithinLimits(Apply(l, ops))
    decreases |ops|
  {
    if ops != [] {
      StepPreservesLimits(l, ops[0]);
      ApplyPreservesLimits(Step(l, ops[0]), ops[1..]);
    }
  }

  /** Records once archived are never altered or removed: the archive before a sequence
      of operations is a prefix of the archive after it. */
  lemma {:induction false} ArchiveOnlyGrows(l: Ledger, ops: seq<Op>)
    ensures l.archive <= Apply(l, ops).archive
    decreases |ops|
  {
    if ops != [] {
      ArchiveOnlyGrows(Step(l, ops[0]), ops[1..]);
    }
  }
}

=== FILE: records.dfy ===
/** The document record, the creation form and the category limit table of
    src/pages/Index.tsx. */
module Records {
  import opened Wrappers

  /** `Document['category']`. */
  datatype Category = Documents | Photos | Cards | Other

  /** The string a category is written as (its key in the limit table). */
  function CategoryName(c: Category): string {
    match c
    case Documents => "documents"
    case Photos => "photos"
    case Cards => "cards"
    case Other => "other"
  }

  /** The `CATEGORY_LIMITS` table: the most active documents a category may hold. */
  const CategoryLimits: map<string, nat> := map[
    "documents" := 100,
    "photos" := 100,
    "cards" := 100,
    "other" := 999
  ]

  /** `CATEGORY_LIMITS[category]`; every category has an entry. */
  function Limit(c: Category): (n: nat)
    ensures CategoryName(c) in CategoryLimits && n == CategoryLimits[CategoryName(c)]
    ensures 100 <= n <= 999
  {
    CategoryLimits[CategoryName(c)]
  }

  datatype Status = Active | Archived

  /** One record of the ledger. Timestamps are the ISO strings the source stores. */
  datatype Document = Document(
    id: string,
    code: string,
    firstName: string,
    lastName: string,
    middleName: string,
    phone: string,
    email: string,
    itemDescription: string,
    category: Category,
    depositAmount: nat,
    pickupAmount: nat,
    depositDate: string,
    pickupDate: string,
    status: Status,
    createdBy: string,
    createdAt: string)

  /** The two clock readings of one create: `depositDate` and `createdAt` each take
      their own `new Date().toISOString()`, so they need not agree. */
  datatype Stamps = Stamps(deposit: string, created: string)

  /** The new-document form. An amount is `None` when the field is empty or does not
      parse as a number; otherwise it is the amount typed. */
  datatype Form = Form(
    firstName: string,
    lastName: string,
    middleName: string,
    phone: string,
    email: string,
    itemDescription: string,
    category: Category,
    depositAmount: Option<nat>,
    pickupAmount: Option<nat>,
    pickupDate: string)
}

=== FILE: roles.dfy ===
/** Roles, the static credential table, the role display names and the two
    permission predicates that gate the UI controls (src/pages/Index.tsx). */
module Roles {
  import opened Wrappers

  /** The non-null members of the `UserRole` union. */
  datatype Role = Client | Cashier | Admin | Creator | Nikitovsky | HeadCashier

  /** The string a role is written as in the source (its key in the tables). */
  function RoleKey(r: Role): string {
    match r
    case Client => "client"
    case Cashier => "cashier"
    case Admin => "admin"
    case Creator => "creator"
    case Nikitovsky => "nikitovsky"
    case HeadCashier => "head-cashier"
  }

  /** The `PASSWORDS` table: one shared secret per role key, plus the archive secret.
      `client` has no entry. */
  const Passwords: map<string, string> := map[
    "cashier" := "25",
    "admin" := "2025",
    "creator" := "202505",
    "nikitovsky" := "20252025",
    "head-cashier" := "202520",
    "archive" := "202505"
  ]

  /** `PASSWORDS.archive`. */
  const ArchiveSecret: string := Passwords["archive"]

  /** `PASSWORDS[role]`: `None` plays the part of `undefined`. */
  function Secret(r: Role): (s: Option<string>)
    ensures s.None? <==> r == Client
    ensures s.Some? ==> |s.value| > 0
    ensures s.Some? ==> RoleKey(r) in Passwords && Passwords[RoleKey(r)] == s.value
  {
    var k := RoleKey(r);
    if k in Passwords then Some(Passwords[k]) else None
  }

  /** `PASSWORDS[role] === password`: exact string equality; `undefined` equals no string. */
  predicate SecretMatches(r: Role, password: string) {
    Secret(r) == Some(password)
  }

  /** No password opens the `client` role through the secret table. */
  lemma ClientNeverMatches(password: string)
    ensures !SecretMatches(Client, password)
  {
  }

  /** The role secrets are pairwise distinct, so a typed secret names at most one role;
      the `creator` secret doubles as the archive secret. */
  lemma SecretsDistinguishRoles(r1: Role, r2: Role, password: string)
    requires SecretMatches(r1, password) && SecretMatches(r2, password)
    ensures r1 == r2
    ensures SecretMatches(Creator, ArchiveSecret)
  {
  }

  /** `getRoleName`: the Russian display name, or the empty string when logged out. */
  function RoleName(r: Option<Role>): (name: string)
    ensures |name| == 0 <==> r.None?
    ensures r.Some? && r.value == Nikitovsky ==> name == "Никитовский"
  {
    match r
    case None => ""
    case Some(Client) => "Покупатель"
    case Some(Cashier) => "Кассир"
    case Some(Admin) => "Администратор"
    case Some(Creator) => "Создатель"
    case Some(Nikitovsky) => "Никитовский"
    case Some(HeadCashier) => "Главный кассир"
  }

  /** Different roles are shown under different names. */
  lemma RoleNameInjective(a: Option<Role>, b: Option<Role>)
    requires RoleName(a) == RoleName(b)
    ensures a == b
  {
  }

  /** The roles listed in `canCreateDocuments`. */
  const CreatorRoles: set<Role> := {Cashier, Admin, Creator, Nikitovsky, HeadCashier}

  /** The roles listed in `canViewArchive`. */
  const ArchiveRoles: set<Role> := {Admin, Creator, Nikitovsky}

  /** `canCreateDocuments`: a role is set and it is one of the five staff roles. */
  predicate CanCreateDocuments(r: Option<Role>) {
    r.Some? && r.value in CreatorRoles
  }

  /** `canViewArchive`: a role is set and it is admin, creator or nikitovsky. */
  predicate CanViewArchive(r: Option<Role>) {
    r.Some? && r.value in ArchiveRoles
  }

  /** The permission matrix role by role: every role but `client` may create, only
      admin, creator and nikitovsky may open the archive, and whoever may open the
      archive may also create. */
  lemma PermissionMatrix(r: Option<Role>)
    ensures CanCreateDocuments(r) <==> r.Some? && r.value != Client
    ensures CanViewArchive(r) <==> r.Some? && r.value != Client && r.value != Cashier && r.value != HeadCashier
    ensures CanViewArchive(r) ==> CanCreateDocuments(r)
  {
    if r.Some? {
      match r.value
      case Client =>
      case Cashier =>
      case Admin =>
      case Creator =>
      case Nikitovsky =>
      case HeadCashier =>
    }
  }
}

=== FILE: session.dfy ===
/** The login and lockout machine of src/pages/Index.tsx, together with the archive
    gate, as pure transitions over an explicit `Session` value. The clock is a
    parameter: `now` is the value `Date.now()` would return, in milliseconds. */
module Session {
  import opened Wrappers
  import opened Roles

  /** Milliseconds since the epoch. */
  type Time = nat

  /** Length of a lockout: 90 seconds. */
  const LockoutMillis: nat := 90000

  /** The failed-attempt count at which a lockout starts. */
  const MaxAttempts: nat := 3

  /** `loginStep`: the role buttons, or the username/password form. */
  datatype LoginStep = RolePicker | SecretForm

  /** The component state the login flow and the archive gate read and write. */
  datatype Session = Session(
    currentRole: Option<Role>,
    step: LoginStep,
    selectedRole: Option<Role>,
    username: string,
    password: string,
    failedAttempts: nat,
    lockout: Option<Time>,
    showArchive: bool,
    archivePassword: string)

  /** The initial `useState` values. */
  const Initial: Session := Session(None, RolePicker, None, "", "", 0, None, false, "")

  /** `if (lockoutTime)`: a deadline is recorded and it is not the falsy 0. */
  predicate Armed(s: Session) {
    s.lockout.Some? && s.lockout.value != 0
  }

  /** `lockoutTime && Date.now() < lockoutTime`. */
  predicate Locked(s: Session, now: Time) {
    Armed(s) && now < s.lockout.value
  }

  /** `Math.ceil((lockoutTime - now) / 1000)` for a deadline still in the future. */
  function RemainingSeconds(deadline: Time, now: Time): (secs: nat)
    requires now < deadline
    ensures secs >= 1
    ensures (secs - 1) * 1000 < deadline - now <= secs * 1000
  {
    (deadline - now + 999) / 1000
  }

  /** `handleRoleSelect`: `nikitovsky` is logged in on the spot, with no secret and no
      lockout check; any other role is remembered and the secret form is shown. */
  function SelectRole(s: Session, r: Role): (t: Session)
    ensures r == Nikitovsky ==> t == s.(currentRole := Some(Nikitovsky))
    ensures r != Nikitovsky ==> t == s.(selectedRole := Some(r), step := SecretForm)
    ensures t.failedAttempts == s.failedAttempts && t.lockout == s.lockout
  {
    if r == Nikitovsky then s.(currentRole := Some(Nikitovsky))
    else s.(selectedRole := Some(r), step := SecretForm)
  }

  /** What a login attempt tells the user (the toast the source raises). */
  datatype LoginReport =
    | LockedOut(remainingSeconds: nat)
    | LoggedIn(role: Role)
    | WrongSecret(attempt: nat)
    | LockoutStarted(until: Time)

  datatype Attempt = Attempt(next: Session, report: LoginReport)

  /** The fields a login attempt may write; everything else is the same in `t` and `s`. */
  predicate OnlyLoginFieldsChanged(s: Session, t: Session) {
    t.(currentRole := s.currentRole, step := s.step,
       failedAttempts := s.failedAttempts, lockout := s.lockout) == s
  }

  /** `handleLogin`. A locked session rejects the attempt before the secret is read.
      Otherwise the typed password is compared with the selected role's entry of the
      secret table; success logs in and clears the counter, failure counts one more
      attempt and, from the third on, starts a 90-second lockout. */
  function Login(s: Session, now: Time): (a: Attempt)
    ensures OnlyLoginFieldsChanged(s, a.next)
    ensures Locked(s, now) ==> a.next == s
    ensures Locked(s, now) <==> a.report.LockedOut?
    ensures a.report.LockedOut? ==>
      (a.report.remainingSeconds - 1) * 1000 < s.lockout.value - now <= a.report.remainingSeconds * 1000
    ensures a.report.LoggedIn? <==>
      !Locked(s, now) && s.selectedRole.Some? && SecretMatches(s.selectedRole.value, s.password)
    ensures a.report.LoggedIn? ==>
      && a.next.currentRole == s.selectedRole && a.report.role == s.selectedRole.value
      && a.next.failedAttempts == 0 && a.next.step == RolePicker && a.next.lockout == s.lockout
    ensures a.report.WrongSecret? || a.report.LockoutStarted? ==>
      && a.next.failedAttempts == s.failedAttempts + 1
      && a.next.currentRole == s.currentRole && a.next.step == s.step
    ensures a.report.LockoutStarted? <==> !Locked(s, now) && !a.report.LoggedIn? && s.failedAttempts + 1 >= MaxAttempts
    ensures a.report.LockoutStarted? ==> a.next.lockout == Some(now + LockoutMillis) && a.report.until == now + LockoutMillis
    ensures a.report.WrongSecret? ==> a.next.lockout == s.lockout && a.report.attempt == a.next.failedAttempts < MaxAttempts
  {
    if Locked(s, now) then
      Attempt(s, LockedOut(RemainingSeconds(s.lockout.value, now)))
    else if s.selectedRole.Some? && SecretMatches(s.selectedRole.value, s.password) then
      Attempt(s.(currentRole := s.selectedRole, failedAttempts := 0, step := RolePicker),
              LoggedIn(s.selectedRole.value))
    else
      var attempts := s.failedAttempts + 1;
      if attempts >= MaxAttempts then
        Attempt(s.(failedAttempts := attempts, lockout := Some(now + LockoutMillis)),
                LockoutStarted(now + LockoutMillis))
      else
        Attempt(s.(failedAttempts := attempts), WrongSecret(attempts))
  }

  /** One firing of the lockout effect's interval timer: once the deadline is reached,
      the deadline and the counter are both cleared; before it, nothing changes. */
  function Expire(s: Session, now: Time): (t: Session)
    ensures Locked(s, now) ==> t == s
    ensures !Armed(s) ==> t == s
    ensures Armed(s) && s.lockout.value <= now ==> t.lockout.None? && t.failedAttempts == 0
    ensures Armed(t) ==> Locked(t, now)
    ensures t.(lockout := s.lockout, failedAttempts := s.failedAttempts) == s
  {
    if Armed(s) && s.lockout.value - now <= 0 then s.(lockout := None, failedAttempts := 0)
    else s
  }

  /** `handleLogout`: role, username, password and archive view are cleared; the
      counter, the lockout deadline, the selected role and the archive password stay. */
  function Logout(s: Session): (t: Session)
    ensures t.currentRole.None? && t.username == [] && t.password == [] && !t.showArchive
    ensures t.failedAttempts == s.failedAttempts && t.lockout == s.lockout
    ensures t.selectedRole == s.selectedRole && t.step == s.step && t.archivePassword == s.archivePassword
  {
    s.(currentRole := None, username := "", password := "", showArchive := false)
  }

  /** The archive listing is rendered: someone is logged in, the archive view is open
      and the typed archive password equals the archive secret. */
  predicate ArchiveListingShown(s: Session) {
    s.currentRole.Some? && s.showArchive && s.archivePassword == ArchiveSecret
  }

  /** The user-visible controls, each a transition. */
  datatype Event =
    | Pick(role: Role)                    // a role button
    | GoBack                              // "back" on the secret form
    | EnterUsername(name: string)         // the username input
    | EnterPassword(secret: string)       // the password input
    | Submit(at: Time)                    // the login button
    | SignOut                             // the logout button
    | ShowArchive                         // the archive button
    | EnterArchivePassword(secret: string)// the archive password input
    | CloseGate                           // "back" on the archive password screen
    | CloseArchive                        // "back" on the archive listing
    | TimerFires(at: Time)                // the lockout effect's interval

  /** Which screen is rendered decides which controls exist. */
  predicate OnLoginScreen(s: Session) { s.currentRole.None? }
  predicate OnMainScreen(s: Session) { s.currentRole.Some? && !s.showArchive }
  predicate OnArchiveGate(s: Session) {
    s.currentRole.Some? && s.showArchive && s.archivePassword != ArchiveSecret
  }

  /** The control is on screen in state `s`. */
  predicate Enabled(s: Session, e: Event) {
    match e
    case Pick(_) => OnLoginScreen(s) && s.step == RolePicker
    case GoBack => OnLoginScreen(s) && s.step == SecretForm
    case EnterUsername(_) => OnLoginScreen(s) && s.step == SecretForm
    case EnterPassword(_) => OnLoginScreen(s) && s.step == SecretForm
    case Submit(_) => OnLoginScreen(s) && s.step == SecretForm
    case SignOut => OnMainScreen(s)
    case ShowArchive => OnMainScreen(s) && CanViewArchive(s.currentRole)
    case EnterArchivePassword(_) => OnArchiveGate(s)
    case CloseGate => OnArchiveGate(s)
    case CloseArchive => ArchiveListingShown(s)
    case TimerFires(_) => true
  }

  /** The handler bound to a control. Only a login attempt or the timer moves the
      counter or the deadline; only a role button, a login or the logout changes the
      current role; only the archive button opens the archive; only the archive
      password input and the listing's back button write the archive password, and
      that back button clears it. */
  function Handle(s: Session, e: Event): (t: Session)
    ensures t.failedAttempts != s.failedAttempts || t.lockout != s.lockout ==> e.Submit? || e.TimerFires?
    ensures t.currentRole != s.currentRole ==> e.Pick? || e.Submit? || e.SignOut?
    ensures t.showArchive && !s.showArchive ==> e.ShowArchive?
    ensures t.archivePassword != s.archivePassword ==> e.EnterArchivePassword? || e.CloseArchive?
    ensures e.CloseArchive? ==> !t.showArchive && t.archivePassword == ""
  {
    match e
    case Pick(r) => SelectRole(s, r)
    case GoBack => s.(step := RolePicker)
    case EnterUsername(u) => s.(username := u)
    case EnterPassword(p) => s.(password := p)
    case Submit(now) => Login(s, now).next
    case SignOut => Logout(s)
    case ShowArchive => s.(showArchive := true)
    case EnterArchivePassword(p) => s.(archivePassword := p)
    case CloseGate => s.(showArchive := false)
    case CloseArchive => s.(showArchive := false, archivePassword := "")
    case TimerFires(now) => Expire(s, now)
  }

  /** Every control but the timer lives on exactly one screen: the role buttons and
      the secret form on the login screen, logout and the archive button on the main
      screen, the rest inside the archive view. */
  lemma ControlScreens(s: Session, e: Event)
    requires Enabled(s, e) && !e.TimerFires?
    ensures OnLoginScreen(s) <==> e.Pick? || e.GoBack? || e.EnterUsername? || e.EnterPassword? || e.Submit?
    ensures OnMainScreen(s) <==> e.SignOut? || e.ShowArchive?
    ensures s.currentRole.Some? && s.showArchive <==>
      e.EnterArchivePassword? || e.CloseGate? || e.CloseArchive?
  {
  }

  /** A control that is not on screen cannot be used. */
  function Apply(s: Session, e: Event): Session {
    if Enabled(s, e) then Handle(s, e) else s
  }

  function Run(s: Session, events: seq<Event>): Session
    decreases |events|
  {
    if events == [] then s else Run(Apply(s, events[0]), events[1..])
  }

  /** What holds of every session the controls can reach from `Initial`:
      a counter at three or more always has a deadline behind it, a deadline is
      never the falsy 0, the archive view is open only for a role allowed to see it,
      and a correct archive password is never left behind outside the archive view. */
  predicate Valid(s: Session) {
    && (s.failedAttempts >= MaxAttempts ==> Armed(s))
    && (s.lockout.Some? ==> s.lockout.value >= LockoutMillis)
    && (s.showArchive ==> CanViewArchive(s.currentRole))
    && (s.archivePassword == ArchiveSecret ==> s.showArchive)
  }

  lemma ApplyPreservesValid(s: Session, e: Event)
    requires Valid(s)
    ensures Valid(Apply(s, e))
  {
  }

  lemma {:induction false} RunPreservesValid(s: Session, events: seq<Event>)
    requires Valid(s)
    ensures Valid(Run(s, events))
    decreases |events|
  {
    if events != [] {
      ApplyPreservesValid(s, events[0]);
      RunPreservesValid(Apply(s, events[0]), events[1..]);
    }
  }

  /** Every session reachable from the initial state is valid. */
  lemma ReachableIsValid(events: seq<Event>)
    ensures Valid(Run(Initial, events))
  {
    RunPreservesValid(Initial, events);
  }

  /** While locked, the outcome of an attempt does not depend on the typed password,
      and the attempt changes nothing. */
  lemma LockedAttemptIgnoresPassword(s: Session, now: Time, p1: string, p2: string)
    requires Locked(s, now)
    ensures Login(s.(password := p1), now).report == Login(s.(password := p2), now).report
    ensures Login(s.(password := p1), now).next == s.(password := p1)
  {
  }

  /** `client` has no entry in the secret table, so the secret form never admits it. */
  lemma ClientLoginAlwaysFails(s: Session, now: Time)
    requires s.selectedRole == Some(Client)
    ensures !Login(s, now).report.LoggedIn?
    ensures Login(s, now).next.currentRole == s.currentRole
  {
    ClientNeverMatches(s.password);
  }

  /** Three wrong secrets in a row, starting from a clean counter, lock the form for
      exactly 90 seconds from the third attempt: every attempt before the deadline is
      rejected, and one at the deadline is evaluated again. */
  lemma ThreeStrikes(s: Session, t1: Time, t2: Time, t3: Time)
    requires s.lockout.None? && s.failedAttempts == 0
    requires !(s.selectedRole.Some? && SecretMatches(s.selectedRole.value, s.password))
    ensures Login(s, t1).report == WrongSecret(1)
    ensures Login(Login(s, t1).next, t2).report == WrongSecret(2)
    ensures var s3 := Login(Login(s, t1).next, t2).next;
      && Login(s3, t3).report == LockoutStarted(t3 + LockoutMillis)
      && Login(s3, t3).next.lockout == Some(t3 + LockoutMillis)
      && (forall t :: t3 <= t < t3 + LockoutMillis ==> Locked(Login(s3, t3).next, t))
      && !Locked(Login(s3, t3).next, t3 + LockoutMillis)
      && Login(Login(s3, t3).next, t3 + 89000).report == LockedOut(1)
      && !Login(Login(s3, t3).next, t3 + 91000).report.LockedOut?
  {
    var s1 := Login(s, t1).next;
    var s2 := Login(s1, t2).next;
    assert s1.failedAttempts == 1 && s1.lockout.None?;
    assert s2.failedAttempts == 2 && s2.lockout.None?;
    assert s2.password == s.password && s2.selectedRole == s.selectedRole;
  }

  /** The counter is not reset when a lockout starts: a wrong secret typed after the
      deadline but before the timer has cleared it counts as a fourth attempt and starts
      a new lockout at once. */
  lemma CounterCanPassThree(s: Session, now: Time)
    requires Valid(s) && s.failedAttempts == MaxAttempts && Armed(s) && s.lockout.value == now
    requires !(s.selectedRole.Some? && SecretMatches(s.selectedRole.value, s.password))
    ensures Login(s, now).next.failedAttempts == 4
    ensures Login(s, now).report == LockoutStarted(now + LockoutMillis)
  {
  }

  /** After the deadline the timer clears the lockout and the counter, so the next wrong
      secret counts as the first attempt again. */
  lemma ExpiryRestartsCount(s: Session, now: Time)
    requires Armed(s) && s.lockout.value <= now
    requires !(s.selectedRole.Some? && SecretMatches(s.selectedRole.value, s.password))
    ensures Login(Expire(s, now), now).report == WrongSecret(1)
  {
  }

  /** Logging out ends the session but not the lockout. */
  lemma LogoutKeepsLockout(s: Session, now: Time)
    ensures Locked(Logout(s), now) <==> Locked(s, now)
    ensures Login(Logout(s), now).report.LockedOut? <==> Login(s, now).report.LockedOut?
  {
  }

  /** The `nikitovsky` button logs in even while the secret form is locked. */
  lemma NikitovskyBypassesLockout(s: Session, now: Time)
    requires Enabled(s, Pick(Nikitovsky)) && Locked(s, now)
    ensures Apply(s, Pick(Nikitovsky)).currentRole == Some(Nikitovsky)
    ensures Login(s, now).report.LockedOut?
  {
  }

  /** In every reachable state, opening the archive shows the password screen first. */
  lemma ArchiveAlwaysAsks(events: seq<Event>)
    ensures var s := Run(Initial, events);
      Enabled(s, ShowArchive) ==> !ArchiveListingShown(Apply(s, ShowArchive))
  {
    ReachableIsValid(events);
  }

  /** In every reachable state, the archive listing is shown only to a role allowed to
      open the archive, and only after the archive secret was typed. */
  lemma ArchiveListingNeedsPermission(events: seq<Event>)
    ensures var s := Run(Initial, events);
      ArchiveListingShown(s) ==> CanViewArchive(s.currentRole) && s.archivePassword == ArchiveSecret
  {
    ReachableIsValid(events);
  }
}

=== FILE: wrappers.dfy ===
/** Option and Result, the two failure-carrying shapes the model uses in place of
    JavaScript's `undefined` and of the early `return` after an error toast. */
module Wrappers {

  datatype Option<+T> = None | Some(value: T) {

    /** The value, or `default` when there is none (JavaScript's `x || d` on an optional). */
    function GetOr(default: T): T {
      match this
      case Some(v) => v
      case None => default
    }
  }

  datatype Result<+R, +E> = Success(value: R) | Failure(error: E)
}
